=== FILE: README.md ===
# motivationTGbot decision logic in Dafny

A model of the decision logic of the Telegram bot in `bot.py`. The bot long-polls
`getUpdates` and looks at the newest update. It answers a trigger phrase at once.
Otherwise it counts the message in a per-chat schedule. When a chat is due, it posts
a phrase built from a verb-like word of the message. The model turns each step of that
decision into a pure function:

- `Text` (text.dfy): lowering, `str.split(' ')`, `' '.join`, punctuation deletion
  (`translate`), and Python's substring test.
- `Triggers` (triggers.dfy): `check_for_target_phrase`.
- `Magic` (magic.dfy): `do_magic`. The pymorphy2 analyser is an oracle
  `Analyzer = string -> Parse(pos, normalForm)` passed in as an argument.
- `Updates` (updates.dfy): the response shape the bot reads, and `get_new_offset`.
- `Dispatch` (dispatch.dfy): `get_send_params`, the per-chat schedule
  (`map<int, int>`), and an equivalent transactional formulation.
- `Loop` (loop.dfy): one iteration of `main`'s loop as a step over
  (offset, schedule), and runs of such steps.

Each `randrange(0, n)` call becomes an arbitrary natural number `pick` taken modulo
`n`. Every index below `n` is reachable this way, and no other index is. The
`Every…Reachable` lemmas prove that every allowed outcome can happen.

## Model

| member | source | states |
|---|---|---|
| `Text.LowerChar` | bot.py:71 | The result is never one of the modelled capitals (ASCII A-Z, Cyrillic U+0400..U+042F); any other character is returned unchanged, and a capital is always changed |
| `Text.Lower` | bot.py:71 | `.lower()` keeps the length, leaves no modelled capital, and keeps every character that is not a capital in its place |
| `Text.Strip` | bot.py:136-138 | The result holds a character exactly when the input holds it and it is not one of the fifteen deleted punctuation characters; the result is never longer than the input |
| `Text.StripConcat` | bot.py:136-138 | Deleting punctuation from a concatenation deletes it from each part |
| `Text.Split` | bot.py:72 | `split(' ')` always yields at least one piece, and no piece contains a space |
| `Text.Join` | bot.py:135 | `' '.join` yields exactly the characters of the pieces, plus the space when there are at least two pieces |
| `Text.JoinSplit` | bot.py:135 | Joining the split pieces with spaces gives back the original text |
| `Text.SplitJoin` | bot.py:72 | Splitting a space-join of one or more space-free pieces gives back those pieces |
| `Text.IsSubstring` | bot.py:141 | Python's `p in s`: the empty string and the text itself always occur in it, and an occurrence is never longer than the text |
| `Triggers.FirstMatch` | bot.py:140-141 | Finds the first preset, in iteration order, whose lowered key occurs in the text; finds none exactly when no key occurs |
| `Triggers.CheckForTargetPhrase` | bot.py:125-145 | Returns None exactly when no lowered key occurs in the space-joined, punctuation-free text; otherwise returns one of the answers of the first preset whose key occurs |
| `Triggers.EveryAnswerReachable` | bot.py:142-143 | Some random draw yields each answer of the first matching preset |
| `Triggers.MatchTextOfMessage` | bot.py:135-138 | Keys are matched against the whole lowered message with punctuation deleted, because split followed by join is the identity |
| `Triggers.PunctuatedKeyNeverFires` | bot.py:136-141 | A preset key that contains a deleted punctuation character can never match |
| `Magic.Fill` | bot.py:179 | `format(word=...)` on a one-slot template: the result is the text before the slot, then the word, then the text after it, in that order and nothing else |
| `Magic.Candidate` | bot.py:162-173 | A token contributes a word exactly when its raw length is at least 3, its punctuation-stripped form is analysed as verb-like, and the normal form is not in the stop list; the word contributed is that normal form |
| `Magic.Vocabulary` | bot.py:157-173 | The vocabulary is never longer than the token list and never holds a stop-list word |
| `Magic.VocabularyMembers` | bot.py:161-173 | A word is a candidate exactly when some token meets all of these: raw length at least 3; its punctuation-stripped form is analysed as VERB, INFN, PRTF, PRTS or GRND; the word is that analysis's normal form; the word is not in the stop list |
| `Magic.DoMagic` | bot.py:159-180 | Returns None exactly when there are no candidate words; otherwise returns a configured template filled with a candidate word |
| `Magic.EveryPhraseReachable` | bot.py:174-179 | Some random draws yield every template filled with every candidate word |
| `Magic.ExampleVocabulary` | bot.py:161-173 | Take "я хочу сказать привет" with an empty stop list, and an analyser that calls "хочу" a verb and "сказать" an infinitive. The candidates are exactly "хотеть" and "сказать" |
| `Magic.ExamplePhrase` | bot.py:174-180 | For that message, a phrase is always produced, and it is a template holding one of those two words |
| `Updates.LastText` | bot.py:50-62 | No text message exactly when `result` is missing, or the last update has no `message`, or that message has no `text`. Otherwise the chat id, message id and text of that message |
| `Updates.NewOffset` | bot.py:117-122 | An offset exists exactly when `result` is present and non-empty and its last update has an id; the offset is that id plus one |
| `Updates.OffsetAcknowledgesAll` | bot.py:118 | If update ids increase along the list, the new offset is above every update in the response |
| `Dispatch.GetSendParams` | bot.py:35-108 | No text message means no target and the same schedule. A target is always the originating chat, replying to the message. Only that chat's counter can change, and it becomes 1, stays the same, or grows by 1. Counters between 1 and the interval stay so |
| `Dispatch.TriggerBypassesCounter` | bot.py:74-77 | If a preset key occurs, the reply goes to the originating chat with `reply_to_message_id` set and uses an answer of the first matching preset; the schedule is left exactly as it was, whatever the counter |
| `Dispatch.QuietCounting` | bot.py:82-94 | A non-trigger message from an unseen chat stores 1; from a chat below the interval it adds 1; nothing is sent and every other chat is unchanged |
| `Dispatch.PostingWhenDue` | bot.py:82-106 | When a chat's counter is at or above the interval and a word exists, the counter becomes exactly 1. The reply goes to that chat, replying to the message, with a template filled with a candidate word |
| `Dispatch.RollbackWhenNoPhrase` | bot.py:96-104 | When a chat is due but no word exists, nothing is sent and the returned schedule equals the snapshot taken before the event |
| `Dispatch.SnapshotIsTransaction` | bot.py:64-106 | The snapshot-and-rollback code decides exactly as a transaction that generates the phrase first and commits the counter only when the chat was not due or a phrase came out |
| `Loop.Step` | bot.py:230-246 | A failed poll leaves the state alone and sends nothing. Otherwise the offset becomes the new offset, None when it cannot be read. A reply sent answers that poll's newest text message in its chat. The schedule keeps counters between 1 and the interval |
| `Loop.Run` | bot.py:228-249 | A run sends no more replies than there are polls carrying a text message, and never more than there are polls. Every reply sent answers the newest text message of one of the polls, in that message's chat |
| `Loop.RepliesMatchPolls` | bot.py:228-249 | The replies of a run can be matched to distinct polls in poll order: reply k answers the newest text message of poll j_k, and the indices j_k strictly increase. So no poll is answered twice |
| `Loop.RunKeepsValid` | bot.py:228-246 | Any run of loop iterations keeps every counter between 1 and the interval (1 when the interval is below 1) |
| `Loop.CountersStayPositive` | bot.py:225-241 | Starting from the empty schedule, every stored counter is at least 1 after any sequence of polls |
| `Loop.RepeatedRollback` | bot.py:102-104 | Any sequence of non-trigger messages from due chats that yield no word sends nothing and never changes the schedule. This includes the same message repeated |
| `Loop.CountingUp` | bot.py:82-89 | Take any sequence of non-trigger text messages from one known chat that keeps the chat below the interval. Each message raises its counter by exactly 1, and nothing is sent |
| `Loop.FirstPostAfterInterval` | bot.py:82-94 | An unseen chat sends nothing for any first max(1, interval) non-trigger text messages. Its counter then equals that number and it is due, so the earliest scheduled post answers message max(1, interval) + 1 |

## Left out

- `get_updates`, `send_message`, `initial_run` and the I/O of `main`: HTTP calls, sleeps, `KeyboardInterrupt`/`exit`, and retrying forever. These are I/O. `Loop.Step` keeps only how the offset and schedule pass from one iteration to the next. A failed poll is `Poll.response == None`.
- pymorphy2: tagging and normal forms are the `Analyzer` oracle. A word pymorphy2 gives no part of speech is `NoPos`.
- Randomness: `randrange` draws are the `Draws` / `pick` arguments, taken modulo the length they range over.
- Lowering: Python 2's `unicode.lower()` maps every character to exactly one character, which `Text.Lower` keeps (`|r| == |s|`). Of that mapping only ASCII A-Z and the Cyrillic capitals U+0400..U+042F are modelled. Other capitals, such as À (U+00C0) and Ґ (U+0490), are left as they are.
- `str.format`: a template is a prefix and a suffix around one `{word}` slot. Templates with several slots or other format fields are not modelled.
- Presets dictionary order: Python 2 iterates a dict in an arbitrary but fixed order. The model takes the presets as a sequence in that order.
- `print` calls and the `settings` module. The settings are passed in as a `Config`.
- Empty `result` list: `get_send_params` raises an uncaught IndexError at bot.py:51, which would end `main`. `HasLastUpdate` is a precondition instead of a modelled crash.
- Missing `chat`/`id`/`message_id` keys in a message raise an uncaught KeyError at bot.py:62 and bot.py:69. These are required fields of `Message`.
- In-place mutation: bot.py:84 changes the caller's dict before the rollback. `main` discards that dict and keeps the returned one, so the model threads the returned schedule only.
- Offset on unreadable data: bot.py:236 assigns the None that `get_new_offset` returns, and `Loop.Step` follows the code.
- `Dispatch.GetSendParams`, `Loop.Step`, `Loop.Run` and every `Loop` lemma: require non-empty templates and non-empty answer lists for the whole configuration (`WellFormed`). The source raises ValueError only when it actually reaches an empty list (bot.py:142, bot.py:159).
- `Triggers.CheckForTargetPhrase`: requires every preset to have answers. The source raises ValueError only when the first matching preset has none (bot.py:142).

=== FILE: dispatch.dfy ===
/**
 The dispatch decision (`get_send_params`, bot.py:35-108): for the newest
 update, either do nothing, reply to a trigger phrase, count the message in
 its chat's schedule, or post a generated phrase when the chat is due.
 */
module Dispatch {
  import opened Options
  import opened Text
  import opened Triggers
  import opened Magic
  import opened Updates

  /** Chat id to message counter. */
  type Schedule = map<int, int>

  /** The settings get_send_params receives: the posting interval (`wait_posts`),
      the phrase templates, the stop list and the trigger presets. */
  datatype Config = Config(interval: int, templates: seq<Template>, stopList: set<string>, presets: seq<Preset>)

  /** Settings under which no `randrange` call can fail. */
  predicate WellFormed(cfg: Config)
  {
    |cfg.templates| > 0 && AnswersNonEmpty(cfg.presets)
  }

  /** The values `randrange` returns during one call: trigger answer, template, word. */
  datatype Draws = Draws(answer: nat, template: nat, word: nat)

  /** What send_message posts: `chat_id`, `text` and `reply_to_message_id`. */
  datatype Reply = Reply(chatId: int, text: string, replyTo: int)

  /** The returned dictionary: `chat_id` None is `target == None`. */
  datatype Params = Params(target: Option<Reply>, schedule: Schedule)

  /** The message text as the bot handles it: lowered, then split at single spaces. */
  function Tokens(text: string): seq<string>
  {
    Split(Lower(text))
  }

  function Max(a: int, b: int): int
  {
    if a < b then b else a
  }

  /** Every stored counter lies between 1 and the interval (or 1, for an interval below 1). */
  ghost predicate Valid(schedule: Schedule, interval: int)
  {
    forall k :: k in schedule ==> 1 <= schedule[k] <= Max(1, interval)
  }

  /** The two schedules agree on every chat other than `c`. */
  ghost predicate AgreesExcept(a: Schedule, b: Schedule, c: int)
  {
    forall k :: k != c ==> (k in a <==> k in b) && (k in a ==> a[k] == b[k])
  }

  /** `get_send_params(response, schedule, interval, phrase_tmpl, stop_list, presets_phrases)`. */
  function GetSendParams(response: Response, schedule: Schedule, cfg: Config,
                         analyze: Analyzer, draws: Draws): (p: Params)
    requires WellFormed(cfg) && HasLastUpdate(response)
    ensures LastText(response).None? ==> p == Params(None, schedule)
    ensures p.target.Some? ==>
      LastText(response).Some?
      && p.target.value.chatId == LastText(response).value.chatId
      && p.target.value.replyTo == LastText(response).value.messageId
    ensures LastText(response).Some? ==> AgreesExcept(p.schedule, schedule, LastText(response).value.chatId)
    ensures LastText(response).Some? && LastText(response).value.chatId in p.schedule ==>
      var c := LastText(response).value.chatId;
      p.schedule[c] == 1 || (c in schedule && (p.schedule[c] == schedule[c] || p.schedule[c] == schedule[c] + 1))
    ensures Valid(schedule, cfg.interval) ==> Valid(p.schedule, cfg.interval)
  {
    match LastText(response)
    case None => Params(None, schedule)
    case Some(m) =>
      var oldSchedule := schedule;
      var tokens := Tokens(m.text);
      match CheckForTargetPhrase(tokens, cfg.presets, draws.answer)
      case Some(answer) => Params(Some(Reply(m.chatId, answer, m.messageId)), schedule)
      case None =>
        if m.chatId in schedule then
          if schedule[m.chatId] >= cfg.interval then
            var updated := schedule[m.chatId := 1];
            match DoMagic(tokens, cfg.templates, cfg.stopList, analyze, draws.template, draws.word)
            case None => Params(None, oldSchedule)
            case Some(final) => Params(Some(Reply(m.chatId, final, m.messageId)), updated)
          else
            Params(None, schedule[m.chatId := schedule[m.chatId] + 1])
        else
          Params(None, schedule[m.chatId := 1])
  }

  /** Some preset key, lowered, occurs in the lowered message with punctuation deleted. */
  predicate IsTrigger(cfg: Config, text: string)
  {
    exists k :: 0 <= k < |cfg.presets| && Fires(cfg.presets[k].key, Strip(Lower(text)))
  }

  /** A trigger phrase is answered in its own chat, as a reply to the message,
      with an answer of the first firing preset, and the schedule is untouched
      whatever the chat's counter. */
  lemma TriggerBypassesCounter(response: Response, schedule: Schedule, cfg: Config, analyze: Analyzer, draws: Draws)
    requires WellFormed(cfg) && HasLastUpdate(response)
    requires LastText(response).Some? && IsTrigger(cfg, LastText(response).value.text)
    ensures var m := LastText(response).value;
      var p := GetSendParams(response, schedule, cfg, analyze, draws);
      && p.schedule == schedule
      && p.target.Some?
      && p.target.value.chatId == m.chatId
      && p.target.value.replyTo == m.messageId
      && exists k :: 0 <= k < |cfg.presets|
           && Fires(cfg.presets[k].key, Strip(Lower(m.text)))
           && (forall j :: 0 <= j < k ==> !Fires(cfg.presets[j].key, Strip(Lower(m.text))))
           && p.target.value.text in cfg.presets[k].answers
  {
    MatchTextOfMessage(LastText(response).value.text);
  }

  /** A text message that triggers nothing from a chat that is not due is
      counted silently: an unseen chat starts at 1, a known one goes up by 1. */
  lemma QuietCounting(response: Response, schedule: Schedule, cfg: Config, analyze: Analyzer, draws: Draws)
    requires WellFormed(cfg) && HasLastUpdate(response)
    requires LastText(response).Some? && !IsTrigger(cfg, LastText(response).value.text)
    requires var c := LastText(response).value.chatId; c !in schedule || schedule[c] < cfg.interval
    ensures var c := LastText(response).value.chatId;
      var p := GetSendParams(response, schedule, cfg, analyze, draws);
      && p.target.None?
      && p.schedule == schedule[c := if c in schedule then schedule[c] + 1 else 1]
  {
    MatchTextOfMessage(LastText(response).value.text);
  }

  /** A due chat whose message yields a word gets a generated phrase, sent as a
      reply to that message, and its counter goes back to exactly 1. */
  lemma PostingWhenDue(response: Response, schedule: Schedule, cfg: Config, analyze: Analyzer, draws: Draws)
    requires WellFormed(cfg) && HasLastUpdate(response)
    requires LastText(response).Some? && !IsTrigger(cfg, LastText(response).value.text)
    requires var c := LastText(response).value.chatId; c in schedule && schedule[c] >= cfg.interval
    requires |Vocabulary(Tokens(LastText(response).value.text), cfg.stopList, analyze)| > 0
    ensures var m := LastText(response).value;
      var p := GetSendParams(response, schedule, cfg, analyze, draws);
      var vocabulary := Vocabulary(Tokens(m.text), cfg.stopList, analyze);
      && p.schedule == schedule[m.chatId := 1]
      && p.target.Some?
      && p.target.value.chatId == m.chatId
      && p.target.value.replyTo == m.messageId
      && exists i, j :: 0 <= i < |cfg.templates| && 0 <= j < |vocabulary|
           && p.target.value.text == Fill(cfg.templates[i], vocabulary[j])
  {
    MatchTextOfMessage(LastText(response).value.text);
  }

  /** A due chat whose message yields no word sends nothing and keeps the
      schedule exactly as it was before the event, so the chat stays due. */
  lemma RollbackWhenNoPhrase(response: Response, schedule: Schedule, cfg: Config, analyze: Analyzer, draws: Draws)
    requires WellFormed(cfg) && HasLastUpdate(response)
    requires LastText(response).Some? && !IsTrigger(cfg, LastText(response).value.text)
    requires var c := LastText(response).value.chatId; c in schedule && schedule[c] >= cfg.interval
    requires |Vocabulary(Tokens(LastText(response).value.text), cfg.stopList, analyze)| == 0
    ensures GetSendParams(response, schedule, cfg, analyze, draws) == Params(None, schedule)
  {
    MatchTextOfMessage(LastText(response).value.text);
  }

  /** Whether a chat with this counter (None: unseen) posts on its next counted message. */
  predicate IsDue(current: Option<int>, interval: int)
  {
    current.Some? && current.value >= interval
  }

  /** The counter a chat gets when a message of it is counted. */
  function NextCounter(current: Option<int>, interval: int): int
  {
    match current
    case None => 1
    case Some(c) => if c >= interval then 1 else c + 1
  }

  /** The dispatch decision written as one transaction: the phrase is generated
      first, and the new counter is committed only when the chat was not due
      or a phrase came out. */
  function DecideTransactionally(response: Response, schedule: Schedule, cfg: Config,
                                 analyze: Analyzer, draws: Draws): Params
    requires WellFormed(cfg) && HasLastUpdate(response)
  {
    match LastText(response)
    case None => Params(None, schedule)
    case Some(m) =>
      var tokens := Tokens(m.text);
      match CheckForTargetPhrase(tokens, cfg.presets, draws.answer)
      case Some(answer) => Params(Some(Reply(m.chatId, answer, m.messageId)), schedule)
      case None =>
        var current := if m.chatId in schedule then Some(schedule[m.chatId]) else None;
        var due := IsDue(current, cfg.interval);
        var phrase := if due then DoMagic(tokens, cfg.templates, cfg.stopList, analyze, draws.template, draws.word) else None;
        var commit := !due || phrase.Some?;
        var target := if phrase.Some? then Some(Reply(m.chatId, phrase.value, m.messageId)) else None;
        Params(target, if commit then schedule[m.chatId := NextCounter(current, cfg.interval)] else schedule)
  }

  /** The snapshot-and-rollback code decides exactly as the transaction does. */
  lemma SnapshotIsTransaction(response: Response, schedule: Schedule, cfg: Config, analyze: Analyzer, draws: Draws)
    requires WellFormed(cfg) && HasLastUpdate(response)
    ensures GetSendParams(response, schedule, cfg, analyze, draws) == DecideTransactionally(response, schedule, cfg, analyze, draws)
  {
  }
}

=== FILE: loop.dfy ===
/**
 One iteration of the main loop (bot.py:228-249) as a pure step over the
 offset and the schedule, and runs of such steps. Polling, sending and
 sleeping are left out; what a poll returned and what `randrange` drew are
 the step's inputs.
 */
module Loop {
  import opened Options
  import opened Magic
  import opened Updates
  import opened Dispatch

  /** What the loop carries from one iteration to the next. */
  datatype LoopState = LoopState(offset: Option<int>, schedule: Schedule)

  /** One iteration's inputs: the decoded poll (None when get_updates failed)
      and the random draws. */
  datatype Poll = Poll(response: Option<Response>, draws: Draws)

  predicate PollOk(p: Poll)
  {
    p.response.None? || HasLastUpdate(p.response.value)
  }

  predicate PollsOk(polls: seq<Poll>)
  {
    forall i :: 0 <= i < |polls| ==> PollOk(polls[i])
  }

  /** The reply answers the newest text message of the poll, in its own chat. */
  predicate Answers(reply: Reply, p: Poll)
    requires PollOk(p)
  {
    && p.response.Some? && LastText(p.response.value).Some?
    && reply.chatId == LastText(p.response.value).value.chatId
    && reply.replyTo == LastText(p.response.value).value.messageId
  }

  /** One iteration: a failed poll changes nothing; otherwise the offset is
      recomputed (becoming None when it cannot be read) and the schedule is
      the one the dispatch decision returns. */
  function Step(cfg: Config, analyze: Analyzer, s: LoopState, poll: Poll): (r: (LoopState, Option<Reply>))
    requires WellFormed(cfg) && PollOk(poll)
    ensures poll.response.None? ==> r == (s, None)
    ensures poll.response.Some? ==> r.0.offset == NewOffset(poll.response.value)
    ensures Valid(s.schedule, cfg.interval) ==> Valid(r.0.schedule, cfg.interval)
    ensures r.1.Some? ==> Answers(r.1.value, poll)
  {
    match poll.response
    case None => (s, None)
    case Some(response) =>
      var offset := NewOffset(response);
      var params := GetSendParams(response, s.schedule, cfg, analyze, poll.draws);
      (LoopState(offset, params.schedule), params.target)
  }

  /** The reply answers the newest text message of one of the polls, in its own chat. */
  predicate RepliesToSomePoll(reply: Reply, polls: seq<Poll>)
    requires PollsOk(polls)
  {
    exists j :: 0 <= j < |polls| && Answers(reply, polls[j])
  }

  /** How many polls carry a text message. */
  function TextPolls(polls: seq<Poll>): nat
    requires PollsOk(polls)
  {
    if |polls| == 0 then 0
    else
      (if polls[0].response.Some? && LastText(polls[0].response.value).Some? then 1 else 0)
      + TextPolls(polls[1..])
  }

  /** Iterations over a sequence of polls: the final state and the replies sent, in order. */
  function Run(cfg: Config, analyze: Analyzer, s: LoopState, polls: seq<Poll>): (r: (LoopState, seq<Reply>))
    requires WellFormed(cfg) && PollsOk(polls)
    ensures |r.1| <= TextPolls(polls) <= |polls|
    ensures forall i :: 0 <= i < |r.1| ==> RepliesToSomePoll(r.1[i], polls)
    decreases |polls|
  {
    if |polls| == 0 then (s, [])
    else
      var (next, sent) := Step(cfg, analyze, s, polls[0]);
      var (last, later) := Run(cfg, analyze, next, polls[1..]);
      (last, (if sent.Some? then [sent.value] else []) + later)
  }

  /** Reply `k` is related to poll `js[k]`, and the indices strictly increase. */
  ghost predicate MatchedBy<R, P>(rel: (R, P) -> bool, replies: seq<R>, polls: seq<P>, js: seq<nat>)
  {
    && |js| == |replies|
    && (forall k :: 0 <= k < |js| ==> js[k] < |polls| && rel(replies[k], polls[js[k]]))
    && (forall k, l :: 0 <= k < l < |js| ==> js[k] < js[l])
  }

  /** A match for the later polls extends to one for all polls when the first
      poll contributes at most one reply, related to itself. */
  lemma ExtendMatch<R, P>(rel: (R, P) -> bool, polls: seq<P>, head: seq<R>, later: seq<R>, rest: seq<nat>)
    returns (js: seq<nat>)
    requires |polls| > 0
    requires |head| <= 1 && (|head| == 1 ==> rel(head[0], polls[0]))
    requires MatchedBy(rel, later, polls[1..], rest)
    ensures MatchedBy(rel, head + later, polls, js)
  {
    var shifted := seq(|rest|, k requires 0 <= k < |rest| => rest[k] + 1);
    forall k | 0 <= k < |rest|
      ensures shifted[k] < |polls| && rel(later[k], polls[shifted[k]])
    {
      assert polls[1..][rest[k]] == polls[shifted[k]];
    }
    assert forall k, l :: 0 <= k < l < |shifted| ==> shifted[k] < shifted[l];
    assert MatchedBy(rel, later, polls, shifted);
    if |head| == 1 {
      js := [0] + shifted;
      var all := head + later;
      forall k | 0 <= k < |js|
        ensures js[k] < |polls| && rel(all[k], polls[js[k]])
      {
        if k > 0 {
          assert all[k] == later[k - 1] && js[k] == shifted[k - 1];
        }
      }
      forall k, l | 0 <= k < l < |js|
        ensures js[k] < js[l]
      {
        assert js[l] == shifted[l - 1] >= 1;
        if k > 0 {
          assert js[k] == shifted[k - 1];
        }
      }
    } else {
      assert head + later == later;
      js := shifted;
    }
  }

  /** `Answers` for any poll: false for one that breaks `PollOk`. */
  predicate AnswersPoll(reply: Reply, p: Poll)
  {
    PollOk(p) && Answers(reply, p)
  }

  /** The replies of a run answer distinct polls, in poll order: reply `k`
      answers poll `js[k]`, and the indices strictly increase, so no poll is
      answered twice. */
  lemma {:induction false} RepliesMatchPolls(cfg: Config, analyze: Analyzer, s: LoopState, polls: seq<Poll>)
    returns (js: seq<nat>)
    requires WellFormed(cfg) && PollsOk(polls)
    ensures |js| == |Run(cfg, analyze, s, polls).1|
    ensures forall k :: 0 <= k < |js| ==> js[k] < |polls| && Answers(Run(cfg, analyze, s, polls).1[k], polls[js[k]])
    ensures forall k, l :: 0 <= k < l < |js| ==> js[k] < js[l]
    decreases |polls|
  {
    if |polls| == 0 {
      js := [];
    } else {
      var step := Step(cfg, analyze, s, polls[0]);
      var head := if step.1.Some? then [step.1.value] else [];
      var later := Run(cfg, analyze, step.0, polls[1..]).1;
      var rest := RepliesMatchPolls(cfg, analyze, step.0, polls[1..]);
      assert Run(cfg, analyze, s, polls).1 == head + later;
      assert forall k :: 0 <= k < |rest| ==> polls[1..][rest[k]] == polls[rest[k] + 1];
      js := ExtendMatch(AnswersPoll, polls, head, later, rest);
    }
  }

  /** The loop keeps every counter between 1 and the interval. */
  lemma {:induction false} RunKeepsValid(cfg: Config, analyze: Analyzer, s: LoopState, polls: seq<Poll>)
    requires WellFormed(cfg) && PollsOk(polls)
    requires Valid(s.schedule, cfg.interval)
    ensures Valid(Run(cfg, analyze, s, polls).0.schedule, cfg.interval)
    decreases |polls|
  {
    if |polls| > 0 {
      RunKeepsValid(cfg, analyze, Step(cfg, analyze, s, polls[0]).0, polls[1..]);
    }
  }

  /** Starting from the empty schedule, every stored counter is at least 1
      (and at most the interval, or 1) after any sequence of polls. */
  lemma CountersStayPositive(cfg: Config, analyze: Analyzer, offset: Option<int>, polls: seq<Poll>)
    requires WellFormed(cfg) && PollsOk(polls)
    ensures var schedule := Run(cfg, analyze, LoopState(offset, map[]), polls).0.schedule;
      forall k :: k in schedule ==> 1 <= schedule[k] <= Max(1, cfg.interval)
  {
    RunKeepsValid(cfg, analyze, LoopState(offset, map[]), polls);
  }

  /** A text message from a due chat that triggers nothing and yields no word. */
  predicate StuckDue(cfg: Config, analyze: Analyzer, schedule: Schedule, p: Poll)
    requires PollOk(p)
  {
    && p.response.Some?
    && LastText(p.response.value).Some?
    && var m := LastText(p.response.value).value;
    && !IsTrigger(cfg, m.text)
    && m.chatId in schedule && schedule[m.chatId] >= cfg.interval
    && |Vocabulary(Tokens(m.text), cfg.stopList, analyze)| == 0
  }

  /** Any sequence of such messages (the same one repeated, or different ones
      from due chats) sends nothing and never moves the schedule, so no chat
      passes its due state. */
  lemma {:induction false} RepeatedRollback(cfg: Config, analyze: Analyzer, s: LoopState, polls: seq<Poll>)
    requires WellFormed(cfg) && PollsOk(polls)
    requires forall i :: 0 <= i < |polls| ==> StuckDue(cfg, analyze, s.schedule, polls[i])
    ensures Run(cfg, analyze, s, polls).0.schedule == s.schedule
    ensures Run(cfg, analyze, s, polls).1 == []
    decreases |polls|
  {
    if |polls| > 0 {
      RollbackWhenNoPhrase(polls[0].response.value, s.schedule, cfg, analyze, polls[0].draws);
      var next := Step(cfg, analyze, s, polls[0]).0;
      assert forall i :: 0 <= i < |polls[1..]| ==> polls[1..][i] == polls[i + 1];
      RepeatedRollback(cfg, analyze, next, polls[1..]);
    }
  }

  /** A text message that triggers nothing. */
  predicate Quiet(cfg: Config, p: Poll)
    requires PollOk(p)
  {
    && p.response.Some?
    && LastText(p.response.value).Some?
    && !IsTrigger(cfg, LastText(p.response.value).value.text)
  }

  /** Every poll is a quiet text message from chat `c`. */
  predicate QuietFrom(cfg: Config, polls: seq<Poll>, c: int)
  {
    forall i :: 0 <= i < |polls| ==>
      PollOk(polls[i]) && Quiet(cfg, polls[i]) && LastText(polls[i].response.value).value.chatId == c
  }

  /** A chat that keeps sending quiet messages counts up by one per message
      and sends nothing while it stays below the interval. */
  lemma {:induction false} CountingUp(cfg: Config, analyze: Analyzer, s: LoopState, polls: seq<Poll>, c: int)
    requires WellFormed(cfg) && PollsOk(polls) && QuietFrom(cfg, polls, c)
    requires c in s.schedule && (|polls| == 0 || s.schedule[c] + |polls| <= cfg.interval)
    ensures var r := Run(cfg, analyze, s, polls);
      c in r.0.schedule && r.0.schedule[c] == s.schedule[c] + |polls| && r.1 == []
    decreases |polls|
  {
    if |polls| > 0 {
      QuietCounting(polls[0].response.value, s.schedule, cfg, analyze, polls[0].draws);
      var next := Step(cfg, analyze, s, polls[0]).0;
      assert forall i :: 0 <= i < |polls[1..]| ==> polls[1..][i] == polls[i + 1];
      CountingUp(cfg, analyze, next, polls[1..], c);
    }
  }

  /** A chat the schedule has not seen sends nothing for its first
      max(1, interval) quiet messages, after which its counter equals that
      number and the chat is due: the earliest scheduled post answers its
      message number max(1, interval) + 1. */
  lemma FirstPostAfterInterval(cfg: Config, analyze: Analyzer, s: LoopState, polls: seq<Poll>, c: int)
    requires WellFormed(cfg) && PollsOk(polls) && QuietFrom(cfg, polls, c)
    requires c !in s.schedule && |polls| == Max(1, cfg.interval)
    ensures var r := Run(cfg, analyze, s, polls);
      && r.1 == []
      && c in r.0.schedule && r.0.schedule[c] == |polls|
      && IsDue(Some(r.0.schedule[c]), cfg.interval)
  {
    QuietCounting(polls[0].response.value, s.schedule, cfg, analyze, polls[0].draws);
    var next := Step(cfg, analyze, s, polls[0]).0;
    assert forall i :: 0 <= i < |polls[1..]| ==> polls[1..][i] == polls[i + 1];
    CountingUp(cfg, analyze, next, polls[1..], c);
  }
}

=== FILE: magic.dfy ===
/**
 Scheduled phrases (`do_magic`, bot.py:148-180): collect the verb-like words of
 the message in their normal form, pick one and splice it into a template.
 The pymorphy2 analyser is an oracle passed in as a function.
 */
module Magic {
  import opened Options
  import opened Text

  /** The part-of-speech tags pymorphy2 reports (`parse.tag.POS`), with
      `NoPos` for a word it gives no part of speech. */
  datatype Pos =
    | NOUN | ADJF | ADJS | COMP | VERB | INFN | PRTF | PRTS | GRND
    | NUMR | ADVB | NPRO | PRED | PREP | CONJ | PRCL | INTJ | NoPos

  /** The first analysis pymorphy2 gives for a word: its part of speech and its normal form. */
  datatype Parse = Parse(pos: Pos, normalForm: string)

  /** `morph.parse(word)[0]` */
  type Analyzer = string -> Parse

  /** Verb, infinitive, full and short participle, gerund. */
  const VerbLike: set<Pos> := {VERB, INFN, PRTF, PRTS, GRND}

  /** A phrase template with its single `{word}` slot: the text before and after it. */
  datatype Template = Template(prefix: string, suffix: string)

  /** `phrase.format(word=word)` */
  function Fill(t: Template, word: string): (r: string)
    ensures |r| == |t.prefix| + |word| + |t.suffix|
    ensures r[..|t.prefix|] == t.prefix
    ensures r[|t.prefix|..|t.prefix| + |word|] == word
    ensures r[|t.prefix| + |word|..] == t.suffix
  {
    t.prefix + word + t.suffix
  }

  /** What one token contributes to the vocabulary (one pass of the loop at bot.py:161-173). */
  function Candidate(token: string, stopList: set<string>, analyze: Analyzer): (r: Option<string>)
    ensures r.Some? <==>
      |token| >= 3 && analyze(Strip(token)).pos in VerbLike && analyze(Strip(token)).normalForm !in stopList
    ensures r.Some? ==> r.value == analyze(Strip(token)).normalForm
  {
    if |token| < 3 then None
    else
      var parse := analyze(Strip(token));
      if parse.pos in VerbLike && parse.normalForm !in stopList then Some(parse.normalForm)
      else None
  }

  /** The candidate words in message order. */
  function Vocabulary(tokens: seq<string>, stopList: set<string>, analyze: Analyzer): (v: seq<string>)
    ensures |v| <= |tokens|
    ensures forall i :: 0 <= i < |v| ==> v[i] !in stopList
  {
    if |tokens| == 0 then []
    else
      var head := match Candidate(tokens[0], stopList, analyze)
        case None => []
        case Some(w) => [w];
      head + Vocabulary(tokens[1..], stopList, analyze)
  }

  /** Token `i` is a source of the word `w`: raw length at least 3, analysed
      after stripping punctuation as verb-like with normal form `w`, and `w`
      is not on the stop list. */
  ghost predicate YieldsWord(tokens: seq<string>, i: int, w: string, stopList: set<string>, analyze: Analyzer)
    requires 0 <= i < |tokens|
  {
    && |tokens[i]| >= 3
    && analyze(Strip(tokens[i])).pos in VerbLike
    && analyze(Strip(tokens[i])).normalForm == w
    && w !in stopList
  }

  /** A word is in the vocabulary exactly when some token of the message yields it. */
  lemma {:induction false} VocabularyMembers(tokens: seq<string>, stopList: set<string>, analyze: Analyzer, w: string)
    ensures w in Vocabulary(tokens, stopList, analyze) <==>
      exists i :: 0 <= i < |tokens| && YieldsWord(tokens, i, w, stopList, analyze)
    decreases |tokens|
  {
    if |tokens| > 0 {
      var rest := tokens[1..];
      VocabularyMembers(rest, stopList, analyze, w);
      forall i | 0 <= i < |rest|
        ensures YieldsWord(rest, i, w, stopList, analyze) <==> YieldsWord(tokens, i + 1, w, stopList, analyze)
      {
        assert rest[i] == tokens[i + 1];
      }
      assert Candidate(tokens[0], stopList, analyze) == Some(w) <==> YieldsWord(tokens, 0, w, stopList, analyze);
      var head := match Candidate(tokens[0], stopList, analyze)
        case None => []
        case Some(x) => [x];
      assert Vocabulary(tokens, stopList, analyze) == head + Vocabulary(rest, stopList, analyze);
      assert w in head <==> Candidate(tokens[0], stopList, analyze) == Some(w);
      if exists i :: 0 <= i < |tokens| && YieldsWord(tokens, i, w, stopList, analyze) {
        var i :| 0 <= i < |tokens| && YieldsWord(tokens, i, w, stopList, analyze);
        if i > 0 {
          assert YieldsWord(rest, i - 1, w, stopList, analyze);
        }
      }
    }
  }

  /** `do_magic(tokens, templates, stop_list)` where the template draw was
      `templatePick` and the word draw `wordPick` (each taken modulo the
      length it ranges over). `None` when no word qualifies. */
  function DoMagic(tokens: seq<string>, templates: seq<Template>, stopList: set<string>,
                   analyze: Analyzer, templatePick: nat, wordPick: nat): (r: Option<string>)
    requires |templates| > 0
    ensures r.None? <==> |Vocabulary(tokens, stopList, analyze)| == 0
    ensures r.Some? ==>
      exists i, j :: 0 <= i < |templates| && 0 <= j < |Vocabulary(tokens, stopList, analyze)|
        && r.value == Fill(templates[i], Vocabulary(tokens, stopList, analyze)[j])
  {
    var phrase := templates[templatePick % |templates|];
    var vocabulary := Vocabulary(tokens, stopList, analyze);
    if |vocabulary| == 0 then None
    else Some(Fill(phrase, vocabulary[wordPick % |vocabulary|]))
  }

  /** Every template filled with every vocabulary word is a possible outcome. */
  lemma EveryPhraseReachable(tokens: seq<string>, templates: seq<Template>, stopList: set<string>,
                             analyze: Analyzer, t: Template, w: string)
    requires t in templates
    requires w in Vocabulary(tokens, stopList, analyze)
    ensures exists tp: nat, wp: nat :: DoMagic(tokens, templates, stopList, analyze, tp, wp) == Some(Fill(t, w))
  {
    var vocabulary := Vocabulary(tokens, stopList, analyze);
    var i :| 0 <= i < |templates| && templates[i] == t;
    var j :| 0 <= j < |vocabulary| && vocabulary[j] == w;
    SmallModulo(i, |templates|);
    SmallModulo(j, |vocabulary|);
    var r := DoMagic(tokens, templates, stopList, analyze, i, j);
    assert r == Some(Fill(t, w));
  }

  /** A stand-in analyser for the example below: "хочу" is a verb with normal
      form "хотеть", "сказать" an infinitive, everything else a noun. */
  function ExampleAnalyzer(word: string): Parse
  {
    if word == "хочу" then Parse(VERB, "хотеть")
    else if word == "сказать" then Parse(INFN, "сказать")
    else Parse(NOUN, word)
  }

  /** A token of at least three characters without punctuation that the
      analyser calls verb-like contributes its normal form unless it is stopped. */
  lemma CleanVerbKept(token: string, stopList: set<string>, analyze: Analyzer)
    requires |token| >= 3 && forall i :: 0 <= i < |token| ==> token[i] !in Punctuation
    requires analyze(token).pos in VerbLike && analyze(token).normalForm !in stopList
    ensures Candidate(token, stopList, analyze) == Some(analyze(token).normalForm)
  {
    StripClean(token);
  }

  /** A token without punctuation that the analyser does not call verb-like contributes nothing. */
  lemma CleanNonVerbDropped(token: string, stopList: set<string>, analyze: Analyzer)
    requires forall i :: 0 <= i < |token| ==> token[i] !in Punctuation
    requires analyze(token).pos !in VerbLike
    ensures Candidate(token, stopList, analyze) == None
  {
    StripClean(token);
  }

  /* The example's words are parameters fixed by `requires` rather than
     literals written inline, and each fact gets its own small lemma: with
     the literals inline the verifier unfolds `Strip` and `Vocabulary` over
     them and runs out of resources. */

  /** The example's longer words hold no punctuation, so `Strip` leaves them as they are. */
  lemma ExampleWordsClean(t: string)
    requires t == "хочу" || t == "сказать" || t == "привет"
    ensures forall i :: 0 <= i < |t| ==> t[i] !in Punctuation
  {
  }

  /** "я" is shorter than three characters and contributes nothing. */
  lemma ExampleShortWord(t: string)
    requires t == "я"
    ensures Candidate(t, {}, ExampleAnalyzer) == None
  {
  }

  /** "хочу" is a verb and contributes its normal form "хотеть". */
  lemma ExampleVerb(t: string)
    requires t == "хочу"
    ensures Candidate(t, {}, ExampleAnalyzer) == Some("хотеть")
  {
    ExampleWordsClean(t);
    CleanVerbKept(t, {}, ExampleAnalyzer);
  }

  /** "сказать" is an infinitive and contributes itself. */
  lemma ExampleInfinitive(t: string)
    requires t == "сказать"
    ensures Candidate(t, {}, ExampleAnalyzer) == Some("сказать")
  {
    ExampleWordsClean(t);
    CleanVerbKept(t, {}, ExampleAnalyzer);
  }

  /** "привет" is not verb-like and contributes nothing. */
  lemma ExampleNoun(t: string)
    requires t == "привет"
    ensures Candidate(t, {}, ExampleAnalyzer) == None
  {
    ExampleWordsClean(t);
    CleanNonVerbDropped(t, {}, ExampleAnalyzer);
  }

  /** The vocabulary of a token list is the first token's candidate, if any, before the rest's. */
  lemma VocabularyUnfold(tokens: seq<string>, stopList: set<string>, analyze: Analyzer)
    requires |tokens| > 0
    ensures Candidate(tokens[0], stopList, analyze).None? ==>
      Vocabulary(tokens, stopList, analyze) == Vocabulary(tokens[1..], stopList, analyze)
    ensures Candidate(tokens[0], stopList, analyze).Some? ==>
      Vocabulary(tokens, stopList, analyze) == [Candidate(tokens[0], stopList, analyze).value] + Vocabulary(tokens[1..], stopList, analyze)
  {
  }

  /** Four tokens of which the middle two are kept give a two-word vocabulary. */
  lemma ExampleShape(t0: string, t1: string, t2: string, t3: string)
    requires Candidate(t0, {}, ExampleAnalyzer) == None
    requires Candidate(t1, {}, ExampleAnalyzer) == Some("хотеть")
    requires Candidate(t2, {}, ExampleAnalyzer) == Some("сказать")
    requires Candidate(t3, {}, ExampleAnalyzer) == None
    ensures Vocabulary([t0, t1, t2, t3], {}, ExampleAnalyzer) == ["хотеть", "сказать"]
  {
    var tokens := [t0, t1, t2, t3];
    VocabularyUnfold(tokens[3..], {}, ExampleAnalyzer);
    assert tokens[3..][1..] == [];
    VocabularyUnfold(tokens[2..], {}, ExampleAnalyzer);
    assert tokens[2..][1..] == tokens[3..];
    VocabularyUnfold(tokens[1..], {}, ExampleAnalyzer);
    assert tokens[1..][1..] == tokens[2..];
    VocabularyUnfold(tokens, {}, ExampleAnalyzer);
  }

  /** With an empty stop list, "я хочу сказать привет" offers exactly the two
      verb-like words. */
  lemma ExampleVocabulary(tokens: seq<string>)
    requires tokens == ["я", "хочу", "сказать", "привет"]
    ensures Vocabulary(tokens, {}, ExampleAnalyzer) == ["хотеть", "сказать"]
  {
    ExampleShortWord(tokens[0]);
    ExampleVerb(tokens[1]);
    ExampleInfinitive(tokens[2]);
    ExampleNoun(tokens[3]);
    ExampleShape(tokens[0], tokens[1], tokens[2], tokens[3]);
    assert tokens == [tokens[0], tokens[1], tokens[2], tokens[3]];
  }

  /** So every phrase generated from that message is a template holding one of them. */
  lemma ExamplePhrase(tokens: seq<string>, templates: seq<Template>, tp: nat, wp: nat)
    requires tokens == ["я", "хочу", "сказать", "привет"]
    requires |templates| > 0
    ensures var r := DoMagic(tokens, templates, {}, ExampleAnalyzer, tp, wp);
      r.Some? && exists i :: 0 <= i < |templates| && r.value in {Fill(templates[i], "хотеть"), Fill(templates[i], "сказать")}
  {
    ExampleVocabulary(tokens);
  }

  lemma SmallModulo(i: nat, n: nat)
    requires i < n
    ensures i % n == i
  {
  }
}

=== FILE: options.dfy ===
/** The optional value used wherever bot.py returns `None` or reads a key that may be absent. */
module Options {

  datatype Option<+T> = None | Some(value: T)
}

=== FILE: text.dfy ===
/**
 Text primitives bot.py relies on: lowering the message, `str.split(' ')`,
 `' '.join(...)`, deleting punctuation with `translate`, and Python's
 substring test `p in s`.
 */
module Text {

  /** The characters deleted before trigger matching (bot.py:136) and before
      morphological analysis (bot.py:165). Both sites list the same fifteen
      characters, in a different order. */
  const Punctuation: set<char> :=
    {'.', ',', '?', '!', ':', ';', ')', '(', '\\', '\U{00AB}', '\U{00BB}', '/', '#', '"', '\''}

  /** The capitals this model lowers: ASCII A-Z and Cyrillic U+0400..U+042F. */
  predicate IsCapital(c: char)
  {
    'A' <= c <= 'Z' || '\U{0400}' <= c <= '\U{042F}'
  }

  /** Lower-case mapping of one character: ASCII capitals and the Cyrillic
      capitals U+0400..U+042F; every other character is its own lower case. */
  function LowerChar(c: char): (d: char)
    ensures !IsCapital(d)
    ensures !IsCapital(c) ==> d == c
    ensures IsCapital(c) ==> d != c
  {
    if 'A' <= c <= 'Z' then (c as int + 32) as char
    else if '\U{0410}' <= c <= '\U{042F}' then (c as int + 0x20) as char
    else if '\U{0400}' <= c <= '\U{040F}' then (c as int + 0x50) as char
    else c
  }

  /** `s.lower()`: same length, no capital left, every other character kept. */
  function Lower(s: string): (r: string)
    ensures |r| == |s|
    ensures forall i :: 0 <= i < |r| ==> !IsCapital(r[i])
    ensures forall i :: 0 <= i < |s| && !IsCapital(s[i]) ==> r[i] == s[i]
  {
    seq(|s|, i requires 0 <= i < |s| => LowerChar(s[i]))
  }

  /** Lowering never turns a character into punctuation or punctuation into something else. */
  lemma LowerKeepsPunctuation(c: char)
    ensures LowerChar(c) in Punctuation <==> c in Punctuation
  {
  }

  /** `s.translate(del_map)` with every punctuation character mapped to None. */
  function Strip(s: string): (r: string)
    ensures |r| <= |s|
    ensures forall c :: c in r <==> c in s && c !in Punctuation
  {
    if |s| == 0 then []
    else (if s[0] in Punctuation then [] else [s[0]]) + Strip(s[1..])
  }

  /** Deleting punctuation distributes over concatenation. */
  lemma {:induction false} StripConcat(a: string, b: string)
    ensures Strip(a + b) == Strip(a) + Strip(b)
    decreases |a|
  {
    if |a| == 0 {
      assert a + b == b;
    } else {
      assert (a + b)[1..] == a[1..] + b;
      StripConcat(a[1..], b);
    }
  }

  /** Text without punctuation is left as it is. */
  lemma {:induction false} StripClean(s: string)
    requires forall i :: 0 <= i < |s| ==> s[i] !in Punctuation
    ensures Strip(s) == s
    decreases |s|
  {
    if |s| > 0 {
      StripClean(s[1..]);
    }
  }

  /** Python's `s.split(' ')`: cut at every single space, keeping empty pieces,
      so the result is never empty. */
  function Split(s: string): (r: seq<string>)
    ensures |r| >= 1
    ensures forall i :: 0 <= i < |r| ==> ' ' !in r[i]
  {
    if |s| == 0 then [[]]
    else
      var rest := Split(s[1..]);
      if s[0] == ' ' then [[]] + rest
      else [[s[0]] + rest[0]] + rest[1..]
  }

  /** Python's `' '.join(ts)`: the text holds the pieces' characters, and a
      space besides when there are at least two pieces. */
  function Join(ts: seq<string>): (r: string)
    ensures forall c :: c in r <==> (exists i :: 0 <= i < |ts| && c in ts[i]) || (c == ' ' && |ts| >= 2)
  {
    if |ts| == 0 then []
    else if |ts| == 1 then ts[0]
    else ts[0] + [' '] + Join(ts[1..])
  }

  /** Joining the pieces of a split gives back the text (bot.py:72 then bot.py:135). */
  lemma {:induction false} JoinSplit(s: string)
    ensures Join(Split(s)) == s
    decreases |s|
  {
    if |s| > 0 {
      var rest := Split(s[1..]);
      JoinSplit(s[1..]);
      if s[0] == ' ' {
        assert Split(s) == [[]] + rest;
        assert ([[]] + rest)[1..] == rest;
        assert Join(Split(s)) == [] + [' '] + Join(rest);
        assert s == [' '] + s[1..];
      } else {
        var pieces := [[s[0]] + rest[0]] + rest[1..];
        assert Split(s) == pieces;
        if |rest| == 1 {
          assert Join(pieces) == [s[0]] + rest[0];
          assert Join(rest) == rest[0];
        } else {
          assert pieces[1..] == rest[1..];
          assert Join(pieces) == ([s[0]] + rest[0]) + [' '] + Join(rest[1..]);
          assert Join(rest) == rest[0] + [' '] + Join(rest[1..]);
        }
        assert s == [s[0]] + s[1..];
      }
    }
  }

  /** Splitting text that begins with a space-free word extends the first piece. */
  lemma {:induction false} SplitWordPrefix(w: string, s: string)
    requires ' ' !in w
    ensures Split(w + s) == [w + Split(s)[0]] + Split(s)[1..]
    decreases |w|
  {
    if |w| > 0 {
      assert (w + s)[1..] == w[1..] + s;
      assert (w + s)[0] == w[0];
      SplitWordPrefix(w[1..], s);
      assert [w[0]] + (w[1..] + Split(s)[0]) == w + Split(s)[0];
    } else {
      var r := Split(s);
      assert w + s == s;
      assert w + r[0] == r[0];
      assert r == [r[0]] + r[1..];
    }
  }

  /** Splitting a join of space-free pieces gives back the pieces. */
  lemma {:induction false} SplitJoin(ts: seq<string>)
    requires |ts| >= 1
    requires forall i :: 0 <= i < |ts| ==> ' ' !in ts[i]
    ensures Split(Join(ts)) == ts
    decreases |ts|
  {
    if |ts| == 1 {
      SplitWordPrefix(ts[0], []);
      assert ts[0] + [] == ts[0];
    } else {
      var tail := Join(ts[1..]);
      SplitJoin(ts[1..]);
      assert ([' '] + tail)[1..] == tail;
      assert Split([' '] + tail) == [[]] + ts[1..];
      assert Join(ts) == ts[0] + ([' '] + tail);
      SplitWordPrefix(ts[0], [' '] + tail);
      assert ts[0] + [] == ts[0];
    }
  }

  /** Python's `p in s` for strings: `p` occurs somewhere in `s`
      (the empty string occurs in every string). */
  predicate IsSubstring(p: string, s: string)
    ensures |p| == 0 ==> IsSubstring(p, s)
    ensures p == s ==> IsSubstring(p, s)
    ensures IsSubstring(p, s) ==> |p| <= |s|
  {
    assert s[0..] == s;
    exists i | 0 <= i <= |s| :: p <= s[i..]
  }

  /** A pattern holding a character that the text lacks never occurs in it. */
  lemma MissingCharNoMatch(p: string, s: string, c: char)
    requires c in p && c !in s
    ensures !IsSubstring(p, s)
  {
  }
}

=== FILE: triggers.dfy ===
/**
 Trigger phrases (`check_for_target_phrase`, bot.py:125-145): the message
 tokens are joined with spaces, punctuation is deleted, and the first preset
 whose lower-cased key occurs in that text answers with one of its replies.
 */
module Triggers {
  import opened Options
  import opened Text

  /** One entry of the presets dictionary: a trigger key and its candidate answers.
      The dictionary is given as a sequence in the order Python iterates it. */
  datatype Preset = Preset(key: string, answers: seq<string>)

  /** Every preset has at least one answer, so `randrange` on its answers cannot fail. */
  predicate AnswersNonEmpty(presets: seq<Preset>)
  {
    forall k :: 0 <= k < |presets| ==> |presets[k].answers| > 0
  }

  /** The text the keys are matched against: tokens joined by spaces, punctuation deleted. */
  function MatchText(tokens: seq<string>): string
  {
    Strip(Join(tokens))
  }

  /** `target_phrase.lower() in text` */
  predicate Fires(key: string, text: string)
  {
    IsSubstring(Lower(key), text)
  }

  /** Index of the first preset whose key fires on `text`. */
  function FirstMatch(presets: seq<Preset>, text: string): (r: Option<nat>)
    ensures r.Some? ==> r.value < |presets| && Fires(presets[r.value].key, text)
    ensures r.Some? ==> forall k :: 0 <= k < r.value ==> !Fires(presets[k].key, text)
    ensures r.None? <==> forall k :: 0 <= k < |presets| ==> !Fires(presets[k].key, text)
  {
    if |presets| == 0 then None
    else if Fires(presets[0].key, text) then Some(0)
    else
      match FirstMatch(presets[1..], text)
      case None => None
      case Some(k) => Some(k + 1)
  }

  /** `check_for_target_phrase(tokens, presets)` where `randrange` drew `pick`
      (taken modulo the number of answers). */
  function CheckForTargetPhrase(tokens: seq<string>, presets: seq<Preset>, pick: nat): (r: Option<string>)
    requires AnswersNonEmpty(presets)
    ensures r.None? <==> forall k :: 0 <= k < |presets| ==> !Fires(presets[k].key, MatchText(tokens))
    ensures r.Some? ==>
      exists k :: 0 <= k < |presets|
        && Fires(presets[k].key, MatchText(tokens))
        && (forall j :: 0 <= j < k ==> !Fires(presets[j].key, MatchText(tokens)))
        && r.value in presets[k].answers
  {
    match FirstMatch(presets, MatchText(tokens))
    case None => None
    case Some(k) =>
      var answers := presets[k].answers;
      Some(answers[pick % |answers|])
  }

  /** Every answer of the first firing preset is a possible reply. */
  lemma EveryAnswerReachable(tokens: seq<string>, presets: seq<Preset>, k: nat, answer: string)
    requires AnswersNonEmpty(presets)
    requires k < |presets| && Fires(presets[k].key, MatchText(tokens))
    requires forall j :: 0 <= j < k ==> !Fires(presets[j].key, MatchText(tokens))
    requires answer in presets[k].answers
    ensures exists pick: nat :: CheckForTargetPhrase(tokens, presets, pick) == Some(answer)
  {
    var m := FirstMatch(presets, MatchText(tokens));
    assert m == Some(k);
    var i :| 0 <= i < |presets[k].answers| && presets[k].answers[i] == answer;
    assert i % |presets[k].answers| == i;
    assert CheckForTargetPhrase(tokens, presets, i) == Some(answer);
  }

  /** The message text is split at bot.py:72 and re-joined at bot.py:135, so the
      keys are matched against the whole lowered message with punctuation deleted. */
  lemma MatchTextOfMessage(text: string)
    ensures MatchText(Split(Lower(text))) == Strip(Lower(text))
  {
    JoinSplit(Lower(text));
  }

  /** A key holding a deleted punctuation character can never fire,
      since the text it is matched against has had those characters removed. */
  lemma PunctuatedKeyNeverFires(key: string, tokens: seq<string>, i: nat)
    requires i < |key| && key[i] in Punctuation
    ensures !Fires(key, MatchText(tokens))
  {
    LowerKeepsPunctuation(key[i]);
    assert Lower(key)[i] == LowerChar(key[i]);
    MissingCharNoMatch(Lower(key), MatchText(tokens), LowerChar(key[i]));
  }
}

=== FILE: updates.dfy ===
/**
 The parts of a getUpdates response the bot reads, and the offset for the next
 poll (`get_new_offset`, bot.py:111-122). Keys the bot looks up with `[...]`
 and catches `KeyError` for are optional here.
 */
module Updates {
  import opened Options

  /** A chat message: its chat, its id, and its text (absent for stickers and the like). */
  datatype Message = Message(chatId: int, messageId: int, text: Option<string>)

  /** One update: its id and its `message` (absent for edited messages and other kinds). */
  datatype Update = Update(updateId: Option<int>, message: Option<Message>)

  /** The decoded response: its `result` list, if present. */
  datatype Response = Response(result: Option<seq<Update>>)

  /** A text message the dispatch decision acts on. */
  datatype Incoming = Incoming(chatId: int, messageId: int, text: string)

  /** `response['result'][-1]` raises IndexError (which get_send_params does not catch)
      when the list is empty. */
  predicate HasLastUpdate(response: Response)
  {
    response.result.None? || |response.result.value| > 0
  }

  /** The text message of the newest update, or None when `result`, `message`
      or `text` is missing (bot.py:50-58). */
  function LastText(response: Response): (r: Option<Incoming>)
    requires HasLastUpdate(response)
    ensures r.None? <==>
      || response.result.None?
      || response.result.value[|response.result.value| - 1].message.None?
      || response.result.value[|response.result.value| - 1].message.value.text.None?
    ensures r.Some? ==>
      var m := response.result.value[|response.result.value| - 1].message.value;
      r.value == Incoming(m.chatId, m.messageId, m.text.value)
  {
    match response.result
    case None => None
    case Some(updates) =>
      match updates[|updates| - 1].message
      case None => None
      case Some(m) =>
        match m.text
        case None => None
        case Some(text) => Some(Incoming(m.chatId, m.messageId, text))
  }

  /** `get_new_offset(response)`: one past the newest update's id, or None
      when `result` or `update_id` is missing or the list is empty. */
  function NewOffset(response: Response): (r: Option<int>)
    ensures r.Some? <==>
      response.result.Some? && |response.result.value| > 0
      && response.result.value[|response.result.value| - 1].updateId.Some?
    ensures r.Some? ==> r.value - 1 == response.result.value[|response.result.value| - 1].updateId.value
  {
    match response.result
    case None => None
    case Some(updates) =>
      if |updates| == 0 then None
      else
        match updates[|updates| - 1].updateId
        case None => None
        case Some(id) => Some(id + 1)
  }

  /** Update ids in a response increase along the list. */
  ghost predicate IdsIncrease(updates: seq<Update>)
  {
    forall i, j :: 0 <= i < j < |updates| && updates[i].updateId.Some? && updates[j].updateId.Some? ==>
                   updates[i].updateId.value < updates[j].updateId.value
  }

  /** When the ids increase, the new offset lies above every update of the
      response, so the next poll acknowledges all of them. */
  lemma OffsetAcknowledgesAll(response: Response)
    requires NewOffset(response).Some?
    requires IdsIncrease(response.result.value)
    ensures forall i :: 0 <= i < |response.result.value| && response.result.value[i].updateId.Some? ==>
              response.result.value[i].updateId.value < NewOffset(response).value
  {
  }
}
